=== FILE: README.md ===
# Chess front end: move-submission state machine

A Dafny model of the client side of a two-player chess game whose rules, legality checks and
AI opponent belong to a remote move authority. The model covers:

- the square codec (`indexToSquare`) and the move string it builds;
- the piece-name helper (`pieceTypeToName`) and the fixed starting position (`initialPieces`);
- the game board's state machine. A drag start queries legal targets. A drop posts a move.
  A promotion request pauses the flow until a piece is chosen in the dialog. A confirmed
  reply installs the authority's snapshot, appends one history entry and, in AI mode,
  asks for the AI's move; a failed reply only clears the highlights. Reset, undo and the mode switch are also covered;
- the history panel (numbered lines built from the history);
- the per-square view of the board: colour, occupant, legal-target highlight split into
  capture and plain move, and the coordinate a drop on the square reports.

The React hooks become the fields of one immutable `Session` (`GameBoard.Session`). Every
gesture and every reply from the authority is an `Event`. `GameBoard.Step` returns the next
session and the requests sent in reaction. The authority is an oracle: its replies
(`Authority.MoveReply`, `Authority.MovesReply`, snapshots) are event parameters.

A move between drop and final reply is a `Submission` keyed by a counter. The code lets a
second drop happen while a first move is in flight, so several submissions can be pending.
A submission keeps what the drop handler captured at drop time: the dragged piece, the
piece on the target square, and the game mode. The promotion resolver slot
(`promotionResolveRef`) is `Session.resolver`, the id of the submission waiting for a
choice. As in the code, a second promotion request overwrites the slot, and the first
submission then never settles.

Behaviour kept as the code has it:

- highlights are cleared when the reply arrives, not at the drop;
- a drop whose id names no piece does nothing;
- reset leaves the check, checkmate, stalemate and game-over flags alone;
- undo trims the local history whatever the authority replies;
- the PvP/AI buttons switch the mode and ask the authority to reset, but do not reset the
  local board or history.

Files: `wrappers.dfy` (Option), `square.dfy`, `pieces.dfy`, `authority.dfy`,
`panel_log.dfy`, `chessboard.dfy`, `game_board.dfy` (the state machine),
`game_properties.dfy` (invariants and multi-step properties).

## Model

| member | source | states |
|---|---|---|
| Square.IndexToSquare | src/gameBoard.tsx:52-56 | the name is two characters: the file letter 97+x ('a'..'h') and the rank digit 8-y ('8'..'1') |
| Square.ParseIndexToSquare | src/gameBoard.tsx:52-56 | decoding the name of (x, y) gives (x, y) back |
| Square.IndexToSquareParse | src/gameBoard.tsx:52-56 | every valid two-character square name is the encoding of the coordinate it decodes to |
| Square.IndexToSquareInjective | src/gameBoard.tsx:52-56 | two coordinates get the same name exactly when they are equal, so the 64 squares have 64 names |
| Square.MoveUci | src/gameBoard.tsx:186-189 | the move string is four characters: the source square's name, then the target's |
| Square.ParseMoveUci | src/gameBoard.tsx:186-189 | the move string determines the move: splitting it gives back source and target |
| Pieces.PieceTypeToName | src/gameBoard.tsx:58-60 | the name is the type name with its first letter upper-cased and the rest unchanged |
| Pieces.PieceTypeToNameInjective | src/gameBoard.tsx:58-60 | two piece types share a display name only if they are the same type |
| Pieces.FirstIndex | src/gameBoard.tsx:175 | the result is the least index whose element matches, or none when no element matches |
| Pieces.FindById | src/gameBoard.tsx:184 | the first piece with the given id, and none exactly when no piece has that id |
| Pieces.FindAt | src/gameBoard.tsx:188 | the first piece standing on (x, y), and none exactly when the square is empty |
| Pieces.InitialSlots | src/gameBoard.tsx:19-50 | each starting piece sits on the square whose slot in the listing is its own index, and its id names that square |
| Pieces.FindByIdDistinct | src/gameBoard.tsx:184 | when ids are distinct, looking up a piece's id finds that very piece |
| Pieces.InitialRows | src/gameBoard.tsx:19-50 | the starting pieces stand only on rows 0, 1, 6 and 7 |
| Pieces.InitialPiecesWellFormed | src/gameBoard.tsx:19-50 | 32 pieces, the first 16 white and the rest black, on pairwise distinct squares, with pairwise distinct ids, each id naming the piece's starting square |
| Authority.GetMoves | src/gameBoard.tsx:75-88 | the legal targets are the reply's pairs as coordinates in order, and empty on a transport error or an empty body |
| Authority.PromotionField | src/gameBoard.tsx:108 | the payload's promotion is null when no letter or an empty letter is given, and the letter otherwise |
| GameBoard.UpdateGameState | src/gameBoard.tsx:90-104 | pieces, turn and flags come from the snapshot; game over is checkmate or stalemate; nothing else changes |
| GameBoard.HandleDragStart | src/gameBoard.tsx:174-179 | the session is unchanged; a legal-move query for the piece's square is sent exactly when the id names a piece of the side to move |
| GameBoard.OnLegalMoves | src/gameBoard.tsx:178 | the highlights become the query's result, empty on failure; nothing else changes |
| GameBoard.HandleDrop | src/gameBoard.tsx:181-189 | an unknown id changes nothing; otherwise the move is posted without promotion and a submission records the drop-time piece, occupant of the target and mode, with the highlights left in place |
| GameBoard.HandlePromotion | src/gameBoard.tsx:159-168 | the submission is parked, the resolver slot names it, the dialog opens; nothing else in the session changes (board, history, highlights, mode, id counter) and nothing is sent |
| GameBoard.FinishSubmission | src/gameBoard.tsx:189-203 | highlights cleared and the submission ended; success installs the snapshot, appends exactly that submission's entry, and sends one AI-move request iff the drop-time mode was "ai"; failure keeps board and history and sends nothing; the mode and the id counter never change |
| GameBoard.OnMoveReply | src/gameBoard.tsx:106-119 | a promotion request parks the submission; a failure or snapshot settles it; a reply for no waiting submission changes nothing |
| GameBoard.OnStateReply | src/gameBoard.tsx:129-157 | an undo or AI-move snapshot is installed wholesale; a failed call changes nothing |
| GameBoard.ButtonLetter | src/gameBoard.tsx:244-267 | the Queen, Rook, Bishop and Knight buttons send q, r, b and n, and a backdrop click sends q |
| GameBoard.ChoosePromotion | src/gameBoard.tsx:162-172 | with no resolver pending nothing happens; otherwise the slot empties, the dialog closes and the same move string is resubmitted with the chosen letter; only the slot, the dialog flag and that submission's status change |
| GameBoard.HandleReset | src/gameBoard.tsx:209-214 | starting position, white to move, empty history, outcome flags untouched, and one reset request |
| GameBoard.HandleUndo | src/gameBoard.tsx:216-219 | exactly the last history entry is removed (an empty history stays empty) and one undo request is sent |
| GameBoard.SetMode | src/gameBoard.tsx:221-229 | the mode changes and nothing else; a mode request and then a reset request are sent |
| GameProperties.InitialIsValid | src/gameBoard.tsx:63-73 | the first session is valid: starting position, white to move, no history, no highlights, dialog closed |
| GameProperties.StepPreservesValid | src/gameBoard.tsx:159-172 | every event keeps the dialog open exactly while a resolver is pending, the resolver on a parked submission, move strings matching their submissions, and history entries naming real pieces |
| GameProperties.RunPreservesValid | src/gameBoard.tsx:159-172 | any sequence of events keeps a valid session valid |
| GameProperties.StepAppendsHistory | src/gameBoard.tsx:192-201 | apart from reset and undo, an event can only append at most one entry to the end of the history |
| GameProperties.RunAppendsHistory | src/gameBoard.tsx:192-201 | without reset and undo the history is append-only, with at most one new entry per event |
| GameProperties.BoardChangesOnlyFromAuthorityOrReset | src/gameBoard.tsx:90-104 | pieces, turn and flags change only by installing an authority snapshot or by a reset to the starting position |
| GameProperties.StepKeepsLive | src/gameBoard.tsx:183-203 | in a valid session, every event other than the reply to an in-flight submission keeps it in flight with the piece, occupant and mode recorded at its drop |
| GameProperties.RunKeepsLive | src/gameBoard.tsx:183-203 | the same over any sequence of events holding no reply for that submission |
| GameProperties.DropTimeValues | src/gameBoard.tsx:183-203 | whatever events come between a drop and its confirmation, the appended entry is built from the piece and the target's occupant as they stood at the drop, and an AI move is requested exactly when the mode was "ai" at the drop |
| GameProperties.DropThenApplied | src/gameBoard.tsx:181-204 | a confirmed drop appends one entry with the pre-move player, name and source, the drop target and a captured name iff the target was occupied at drop time; highlights cleared; one AI request iff in "ai" mode |
| GameProperties.DropThenFailed | src/gameBoard.tsx:189-203 | a rejected drop leaves board, turn, flags and history unchanged, clears highlights and asks for no AI move |
| GameProperties.DropOfUnknownPiece | src/gameBoard.tsx:184-185 | a drop naming no piece, followed by any reply, changes nothing and sends nothing |
| GameProperties.PromotionRoundTrip | src/gameBoard.tsx:110-113 | a promotion request opens the dialog; one click closes it and resends the same move string with the clicked letter; the confirmed move is logged once |
| GameProperties.SecondPromotionStrandsFirst | src/gameBoard.tsx:159-172 | after two promotion requests, one click resubmits only the second move; the first stays parked with no resolver and the dialog closed, and a later reply for it is ignored |
| GameProperties.ChoosePromotionSingleShot | src/gameBoard.tsx:162-172 | after one choice, a second choice changes nothing and sends nothing |
| GameProperties.UndoWhateverTheReply | src/gameBoard.tsx:216-219 | after undo and any reply the history has lost exactly its last entry; only a snapshot reply changes the board |
| GameProperties.OpeningLookups | src/gameBoard.tsx:19-26 | in the starting position the id "e2" names the white pawn on (4, 6), and (4, 4) is empty |
| GameProperties.PawnMoveFrom | src/gameBoard.tsx:174-203 | with the white e2 pawn on the board and e4 empty, grabbing it and receiving [(4,5),(4,4)] highlights those squares; dropping on e4 and getting a confirmation posts "e2e4" and appends exactly "white Pawn from (4,6) to (4,4), no capture" |
| GameProperties.OpeningPawnMove | src/gameBoard.tsx:174-203 | from the first session, that grab, drop and confirmation leave a one-entry history, no highlights and the snapshot's board |
| PanelLog.FormatSquare | src/PanelLog.tsx:16-20 | the panel's square names equal the codec's names for every coordinate |
| PanelLog.ColourLabel | src/PanelLog.tsx:23 | "Blue" exactly for white and "Red" exactly for black |
| PanelLog.CaptureNote | src/PanelLog.tsx:77-81 | the capture note appears iff the captured name is present and non-empty, and then shows that name |
| PanelLog.RenderHistory | src/PanelLog.tsx:49-84 | an empty history gives just the placeholder; otherwise one numbered line per entry in order, line k numbered k+1, with colour, piece, source name before target name, and a capture note that shows the entry's captured piece name exactly when that name is present and non-empty |
| PanelLog.RenderHistoryAppend | src/PanelLog.tsx:52-66 | appending an entry adds exactly one line at the end, numbered one past the old length, and the placeholder goes with the first entry |
| Chessboard.CellAt | src/chessboard.tsx:23-33 | black iff row+column is odd; occupant is the first piece on the square; capture and plain move are exclusive, their union is the highlight, and capture means highlighted and occupied; a drop reports (column, row) |
| Chessboard.Board | src/chessboard.tsx:21-33 | 64 cells, row by row; every square is the drop target of exactly one cell, and that cell shows the piece on the square it reports |
| Chessboard.CellIndexCell | src/chessboard.tsx:21-22 | the cell at position 8y+x is the one computed for row y, column x |
| Chessboard.BoardIsCheckered | src/chessboard.tsx:23 | neighbouring cells differ in colour, a8 (top left) is white and a1 (bottom left) is black |

## Left out

- HTTP transport, the API URL, JSON payloads and `console.log` diagnostics: requests are the `Authority.Request` values a step emits, and replies arrive as events.
- Promise, `useState` and `useRef` timing: each reply is one atomic event, and the order of events is the caller's choice.
- Chess legality, check detection and the AI's move choice belong to the authority and appear only as reply values.
- Acknowledgements of the reset and set-mode requests: the code ignores them, so they are not events.
- Layout, styles, the dialog's visuals and the turn banner text.
- The drag payload (`dataTransfer`): the `Drop` event carries the id the drag carried. An accepted drag start sets it to the piece's id; otherwise it is empty.
- `src/chesspiece.tsx` and `src/button.tsx` are not part of this model. Piece types are the six chess pieces and players are white and black.
- Coordinates are restricted to 0..7 by type. Pieces or legal-move pairs outside the board, which only a misbehaving authority could send, are not modelled.
- The arrow glyph between the two squares of a history line is the constant `PanelLog.Arrow`.
- `toUpperCase` is modelled for ASCII letters only, the only characters in piece-type names.

=== FILE: authority.dfy ===
/**
  The remote move authority as the client sees it: the requests the client sends and
  the replies it may get back. Chess rules, check detection and the AI live behind
  this interface and are not modelled; replies are inputs to the model.
 */
module Authority {
  import opened Wrappers
  import opened Square
  import opened Pieces

  datatype Mode = Pvp | Ai

  /** The authority's game state, as returned by a move, undo or AI-move request. */
  datatype Snapshot = Snapshot(pieces: seq<Piece>, playerTurn: Player,
                               isCheckmate: bool, isStalemate: bool, isCheck: bool)

  /** Outcome of `POST move/`: a transport error or rejection, a request for a
      promotion choice, or the new game state. */
  datatype MoveReply = MoveFailed | PromotionNeeded | Applied(snapshot: Snapshot)

  /** Outcome of `GET legal_moves/{square}`: a transport error, an empty (falsy) body,
      or a list of [x, y] pairs. */
  datatype MovesReply = QueryFailed | NoData | MoveList(moves: seq<(Index, Index)>)

  /** The calls the client issues. */
  datatype Request =
    | LegalMoves(square: string)
    | PostMove(move: string, promotion: Option<string>)
    | PostUndo
    | PostReset
    | PostGameMode(mode: Mode)
    | PostAiMove

  /** What `getMoves` resolves to: the pairs as coordinates in reply order, and the
      empty list whenever the query failed or returned no data. */
  function GetMoves(reply: MovesReply): (moves: seq<Coord>)
    ensures !reply.MoveList? ==> moves == []
    ensures reply.MoveList? ==> |moves| == |reply.moves|
    ensures reply.MoveList? ==> forall k :: 0 <= k < |moves| ==>
              moves[k].x == reply.moves[k].0 && moves[k].y == reply.moves[k].1
  {
    match reply
    case MoveList(ms) => seq(|ms|, k requires 0 <= k < |ms| => Coord(ms[k].0, ms[k].1))
    case _ => []
  }

  /** The `promotion` field of the move payload, `promotion || null`: an absent or empty
      letter is sent as null. */
  function PromotionField(choice: Option<string>): (field: Option<string>)
    ensures field.Some? <==> choice.Some? && choice.value != ""
    ensures field.Some? ==> field == choice
  {
    match choice
    case Some(letter) => if letter == "" then None else Some(letter)
    case None => None
  }
}

=== FILE: chessboard.dfy ===
/**
  The per-square view computed by src/chessboard.tsx: 64 cells, row by row, each with
  its colour, its occupant, its legal-target highlight, and the coordinate a drop on it
  reports back to the game board.
 */
module Chessboard {
  import opened Wrappers
  import opened Square
  import opened Pieces

  datatype Cell = Cell(row: Index, col: Index, isBlack: bool, occupant: Option<Piece>,
                       isAvailableMove: bool, isCapture: bool, isMoveOnly: bool, dropTarget: Coord)

  /** Whether some piece stands on column x, row y. */
  ghost predicate Occupied(pieces: seq<Piece>, x: Index, y: Index)
  {
    exists p :: p in pieces && p.x == x && p.y == y
  }

  /** The cell at row i, column j. A legal target is a capture when occupied and a plain move
      otherwise; never both. */
  function CellAt(pieces: seq<Piece>, moves: seq<Coord>, i: Index, j: Index): (c: Cell)
    ensures c.row == i && c.col == j
    ensures c.isBlack <==> (i + j) % 2 == 1
    ensures c.occupant == FindAt(pieces, j, i)
    ensures c.isAvailableMove <==> Coord(j, i) in moves
    ensures c.isCapture <==> Coord(j, i) in moves && Occupied(pieces, j, i)
    ensures c.isMoveOnly <==> Coord(j, i) in moves && !Occupied(pieces, j, i)
    ensures !(c.isCapture && c.isMoveOnly)
    ensures c.isCapture || c.isMoveOnly <==> c.isAvailableMove
    ensures c.dropTarget == Coord(j, i)
  {
    var piece := FindAt(pieces, j, i);
    var isAvailableMove := exists k :: 0 <= k < |moves| && moves[k].x == j && moves[k].y == i;
    Cell(i, j, (i + j) % 2 == 1, piece, isAvailableMove,
         isAvailableMove && piece.Some?, isAvailableMove && piece.None?, Coord(j, i))
  }

  /** The whole board: 64 cells, row 0 first, each row from column 0 to column 7. Every
      square is the drop target of exactly one cell, and that cell shows the piece standing
      on the square it reports. */
  function Board(pieces: seq<Piece>, moves: seq<Coord>): (cells: seq<Cell>)
    ensures |cells| == 64
    ensures forall k :: 0 <= k < 64 ==> cells[k] == CellAt(pieces, moves, k / 8, k % 8)
    ensures forall x: Index, y: Index :: CellIndex(x, y) < 64 && cells[CellIndex(x, y)].dropTarget == Coord(x, y)
    ensures forall k1, k2 :: 0 <= k1 < 64 && 0 <= k2 < 64 && cells[k1].dropTarget == cells[k2].dropTarget
              ==> k1 == k2
    ensures forall k :: 0 <= k < 64 ==>
              cells[k].occupant == FindAt(pieces, cells[k].dropTarget.x, cells[k].dropTarget.y)
  {
    var cells := seq(64, k requires 0 <= k < 64 => CellAt(pieces, moves, k / 8, k % 8));
    assert forall x: Index, y: Index :: CellIndex(x, y) / 8 == y && CellIndex(x, y) % 8 == x;
    cells
  }

  /** The position in the board's cell list of the cell for column x, row y. */
  function CellIndex(x: Index, y: Index): nat
  {
    8 * y + x
  }

  /** The cell for column x, row y is the one computed for that square. */
  lemma CellIndexCell(pieces: seq<Piece>, moves: seq<Coord>, x: Index, y: Index)
    ensures CellIndex(x, y) < 64
    ensures Board(pieces, moves)[CellIndex(x, y)] == CellAt(pieces, moves, y, x)
  {
  }

  /** The colouring is a checkerboard: neighbours in a row or a column differ, the top-left
      square (a8) is white and the bottom-left square (a1) is black. */
  lemma BoardIsCheckered(pieces: seq<Piece>, moves: seq<Coord>, i: Index, j: Index)
    ensures j < 7 ==> CellAt(pieces, moves, i, j).isBlack != CellAt(pieces, moves, i, j + 1).isBlack
    ensures i < 7 ==> CellAt(pieces, moves, i, j).isBlack != CellAt(pieces, moves, i + 1, j).isBlack
    ensures !CellAt(pieces, moves, 0, 0).isBlack && CellAt(pieces, moves, 7, 0).isBlack
  {
  }
}

=== FILE: game_board.dfy ===
/**
  The move-submission state machine of src/gameBoard.tsx. The React state hooks become
  the fields of one `Session` value; every user gesture and every reply from the move
  authority is an `Event`; `Step` gives the next session together with the requests the
  client sends in reaction. A move submission lives in `submissions` from the drop until
  its final reply, holding what the drop handler captured at drop time.
 */
module GameBoard {
  import opened Wrappers
  import opened Square
  import opened Pieces
  import opened Authority
  import opened PanelLog

  /** A submission is waiting for the authority, or parked until a promotion piece is chosen. */
  datatype Status = InFlight | AwaitingChoice

  /** A move between drop and final reply: the dragged piece, the drop square and the piece
      that stood there, all as they were at drop time, with the game mode of that moment. */
  datatype Submission = Submission(piece: Piece, target: Coord, captured: Option<Piece>,
                                   modeAtDrop: Mode, move: string, status: Status)

  /** The pieces, the side to move and the outcome flags: the part of the session that only
      an authority snapshot or a reset writes. */
  datatype BoardState = BoardState(pieces: seq<Piece>, playerTurn: Player, isCheckmate: bool,
                                   isStalemate: bool, isCheck: bool, isGameOver: bool)

  /** Everything the game board holds. `resolver` is the promotion resolver slot: the
      submission whose promotion choice is awaited, if any. */
  datatype Session = Session(
    mode: Mode,
    board: BoardState,
    availableMoves: seq<Coord>,
    history: seq<MoveLogEntry>,
    promotionModalOpen: bool,
    resolver: Option<nat>,
    submissions: map<nat, Submission>,
    nextId: nat)

  /** The four piece buttons of the promotion dialog, and a click on the dimmed backdrop. */
  datatype PromotionButton = QueenButton | RookButton | BishopButton | KnightButton | Backdrop

  datatype Event =
    | DragStart(id: string)
      /** `pieceId` is the drag payload: the id set on an accepted drag start. */
    | Drop(pieceId: string, x: Index, y: Index)
    | PromotionClick(button: PromotionButton)
    | ResetClicked
    | UndoClicked
    | PvpClicked
    | AiClicked
    | LegalMovesReplied(moves: MovesReply)
    | MoveReplied(submission: nat, reply: MoveReply)
    | UndoReplied(state: Option<Snapshot>)
    | AiMoveReplied(state: Option<Snapshot>)

  /** The session after an event, and the requests sent to the authority, in order. */
  datatype Transition = Transition(next: Session, sent: seq<Request>)

  /** The session a page load starts with. */
  function Initial(): Session
  {
    Session(Pvp, BoardState(InitialPieces(), White, false, false, false, false), [], [], false, None, map[], 0)
  }

  /** The board-and-outcome part of two sessions agrees. */
  predicate SameBoard(a: Session, b: Session)
  {
    a.board == b.board
  }

  /** The board-and-outcome part of a session is the authority's snapshot; the game is
      over exactly on checkmate or stalemate. */
  predicate Reflects(s: Session, snap: Snapshot)
  {
    && s.board.pieces == snap.pieces
    && s.board.playerTurn == snap.playerTurn
    && s.board.isCheckmate == snap.isCheckmate
    && s.board.isStalemate == snap.isStalemate
    && s.board.isCheck == snap.isCheck
    && (s.board.isGameOver <==> snap.isCheckmate || snap.isStalemate)
  }

  /** Everything outside the board-and-outcome part agrees. */
  predicate SameClient(a: Session, b: Session)
  {
    a.(board := b.board) == b
  }

  /** `updateGameState`: the snapshot replaces pieces, turn and outcome flags wholesale. */
  function UpdateGameState(s: Session, snap: Snapshot): (r: Session)
    ensures Reflects(r, snap)
    ensures SameClient(r, s)
  {
    s.(board := BoardState(snap.pieces, snap.playerTurn, snap.isCheckmate, snap.isStalemate,
                           snap.isCheck, snap.isCheckmate || snap.isStalemate))
  }

  /** `handleDragStart`: a piece of the side to move starts a legal-move query for its square;
      an unknown id or the other side's piece does nothing. */
  function HandleDragStart(s: Session, id: string): (t: Transition)
    ensures t.next == s
    ensures var found := FindById(s.board.pieces, id);
            && ((found.None? || found.value.player != s.board.playerTurn) <==> t.sent == [])
            && (found.Some? && found.value.player == s.board.playerTurn ==>
                  t.sent == [LegalMoves(IndexToSquare(found.value.x, found.value.y))])
  {
    match FindById(s.board.pieces, id)
    case None => Transition(s, [])
    case Some(piece) =>
      if piece.player != s.board.playerTurn then Transition(s, [])
      else Transition(s, [LegalMoves(IndexToSquare(piece.x, piece.y))])
  }

  /** `getMoves(...).then(setAvailableMoves)`: the highlighted targets become the reply's
      list, which is empty when the query failed; nothing else changes. */
  function OnLegalMoves(s: Session, reply: MovesReply): (r: Session)
    ensures r.availableMoves == GetMoves(reply)
    ensures !reply.MoveList? ==> r.availableMoves == []
    ensures r.(availableMoves := s.availableMoves) == s
  {
    s.(availableMoves := GetMoves(reply))
  }

  /** `handleDrop`: a drop of a known piece records a submission with the piece, the piece
      found on the target square and the mode, all as of now, and posts the move without a
      promotion. The highlights stay until the reply. An unknown id does nothing. */
  function HandleDrop(s: Session, pieceId: string, x: Index, y: Index): (t: Transition)
    ensures FindById(s.board.pieces, pieceId).None? ==> t.next == s && t.sent == []
    ensures FindById(s.board.pieces, pieceId).Some? ==>
              var piece := FindById(s.board.pieces, pieceId).value;
              var move := MoveUci(Coord(piece.x, piece.y), Coord(x, y));
              && t.sent == [PostMove(move, None)]
              && t.next.nextId == s.nextId + 1
              && t.next.submissions
                 == s.submissions[s.nextId := Submission(piece, Coord(x, y), FindAt(s.board.pieces, x, y), s.mode, move, InFlight)]
              && t.next.(submissions := s.submissions, nextId := s.nextId) == s
  {
    match FindById(s.board.pieces, pieceId)
    case None => Transition(s, [])
    case Some(piece) =>
      var move := MoveUci(Coord(piece.x, piece.y), Coord(x, y));
      var sub := Submission(piece, Coord(x, y), FindAt(s.board.pieces, x, y), s.mode, move, InFlight);
      Transition(s.(submissions := s.submissions[s.nextId := sub], nextId := s.nextId + 1),
                 [PostMove(move, PromotionField(None))])
  }

  /** The history entry for a confirmed submission, built from drop-time values. */
  function LogEntry(sub: Submission): MoveLogEntry
  {
    MoveLogEntry(sub.piece.player, PieceTypeToName(sub.piece.kind), Coord(sub.piece.x, sub.piece.y),
                 sub.target,
                 match sub.captured
                 case Some(p) => Some(PieceTypeToName(p.kind))
                 case None => None)
  }

  /** Whether submission k is waiting for the authority's reply. */
  predicate Live(s: Session, k: nat)
  {
    k in s.submissions && s.submissions[k].status == InFlight
  }

  /** The reply to an undo or AI-move request: a snapshot is installed, a failure ignored. */
  function OnStateReply(s: Session, state: Option<Snapshot>): (r: Session)
    ensures state.None? ==> r == s
    ensures state.Some? ==> Reflects(r, state.value) && SameClient(r, s)
  {
    match state
    case None => s
    case Some(snap) => UpdateGameState(s, snap)
  }

  /** `handlePromotion`: the submission is parked, the resolver slot now belongs to it (a
      resolver already there is overwritten) and the dialog opens; nothing is sent. */
  function HandlePromotion(s: Session, k: nat): (t: Transition)
    requires Live(s, k)
    ensures t.next.resolver == Some(k) && t.next.promotionModalOpen
    ensures t.next.submissions == s.submissions[k := s.submissions[k].(status := AwaitingChoice)]
    ensures SameBoard(t.next, s) && t.next.history == s.history
    ensures t.next.availableMoves == s.availableMoves
    ensures t.next.(submissions := s.submissions, resolver := s.resolver, promotionModalOpen := s.promotionModalOpen) == s
    ensures t.sent == []
  {
    var sub := s.submissions[k];
    Transition(s.(submissions := s.submissions[k := sub.(status := AwaitingChoice)],
                  resolver := Some(k), promotionModalOpen := true), [])
  }

  /** The drop handler's continuation once `postStates` settles. Either way the highlights are
      cleared and the submission ends. On success (`state` holds the snapshot `postStates`
      installed) one entry built from drop-time values is appended and, if the mode was "ai" at
      drop time, exactly one AI-move request is sent. On failure the board, turn, flags and
      history stay as they were and nothing is sent. */
  function FinishSubmission(s: Session, k: nat, state: Option<Snapshot>): (t: Transition)
    requires Live(s, k)
    ensures t.next.availableMoves == []
    ensures t.next.submissions == s.submissions - {k}
    ensures t.next.resolver == s.resolver && t.next.promotionModalOpen == s.promotionModalOpen
    ensures t.next.mode == s.mode && t.next.nextId == s.nextId
    ensures state.None? ==> SameBoard(t.next, s) && t.next.history == s.history && t.sent == []
    ensures state.Some? ==>
              && Reflects(t.next, state.value)
              && t.next.history == s.history + [LogEntry(s.submissions[k])]
              && (PostAiMove in t.sent <==> s.submissions[k].modeAtDrop == Ai)
              && |t.sent| <= 1
  {
    var sub := s.submissions[k];
    var s1 := OnStateReply(s, state);
    var s2 := s1.(availableMoves := [], submissions := s1.submissions - {k});
    if state.Some? then
      Transition(s2.(history := s2.history + [LogEntry(sub)]),
                 if sub.modeAtDrop == Ai then [PostAiMove] else [])
    else Transition(s2, [])
  }

  /** `postStates` receiving the authority's reply for submission k: a promotion request is
      handed to `HandlePromotion`, a failure or a snapshot settles the submission. A reply for
      no waiting submission changes nothing. */
  function OnMoveReply(s: Session, k: nat, reply: MoveReply): (t: Transition)
    ensures !Live(s, k) ==> t.next == s && t.sent == []
    ensures Live(s, k) && reply.PromotionNeeded? ==> t == HandlePromotion(s, k)
    ensures Live(s, k) && reply.MoveFailed? ==> t == FinishSubmission(s, k, None)
    ensures Live(s, k) && reply.Applied? ==> t == FinishSubmission(s, k, Some(reply.snapshot))
  {
    if !Live(s, k) then Transition(s, [])
    else
      match reply
      case PromotionNeeded => HandlePromotion(s, k)
      case MoveFailed => FinishSubmission(s, k, None)
      case Applied(snap) => FinishSubmission(s, k, Some(snap))
  }

  /** The letter a dialog click hands to `choosePromotion`; the backdrop defaults to a queen. */
  function ButtonLetter(b: PromotionButton): (letter: string)
    ensures letter in {"q", "r", "b", "n"}
    ensures b == QueenButton ==> letter == "q"
    ensures b == RookButton ==> letter == "r"
    ensures b == BishopButton ==> letter == "b"
    ensures b == KnightButton ==> letter == "n"
    ensures b == Backdrop ==> letter == "q"
  {
    match b
    case QueenButton => "q"
    case RookButton => "r"
    case BishopButton => "b"
    case KnightButton => "n"
    case Backdrop => "q"
  }

  /** `choosePromotion`: with a resolver pending, empties the slot, closes the dialog and
      resubmits the same move string with the chosen letter; with none, does nothing. */
  function ChoosePromotion(s: Session, letter: string): (t: Transition)
    ensures s.resolver.None? ==> t.next == s && t.sent == []
    ensures s.resolver.Some? ==>
              && t.next.resolver.None? && !t.next.promotionModalOpen
              && SameBoard(t.next, s) && t.next.history == s.history
              && t.next.availableMoves == s.availableMoves
    ensures t.next.(submissions := s.submissions, resolver := s.resolver, promotionModalOpen := s.promotionModalOpen) == s
    ensures s.resolver.Some? && s.resolver.value in s.submissions ==>
              var k := s.resolver.value;
              && t.sent == [PostMove(s.submissions[k].move, PromotionField(Some(letter)))]
              && t.next.submissions == s.submissions[k := s.submissions[k].(status := InFlight)]
  {
    match s.resolver
    case None => Transition(s, [])
    case Some(k) =>
      var s1 := s.(resolver := None, promotionModalOpen := false);
      if k in s.submissions then
        var sub := s.submissions[k];
        Transition(s1.(submissions := s.submissions[k := sub.(status := InFlight)]),
                   [PostMove(sub.move, PromotionField(Some(letter)))])
      else Transition(s1, [])
  }

  /** `handleReset`: the starting position, white to move and an empty history, at once and
      without waiting for the authority; the outcome flags are left as they were. */
  function HandleReset(s: Session): (t: Transition)
    ensures t.next.board.pieces == InitialPieces() && t.next.board.playerTurn == White
    ensures t.next.history == []
    ensures t.next.board.isCheckmate == s.board.isCheckmate && t.next.board.isStalemate == s.board.isStalemate
    ensures t.next.board.isCheck == s.board.isCheck && t.next.board.isGameOver == s.board.isGameOver
    ensures t.next.(board := s.board, history := s.history) == s
    ensures t.sent == [PostReset]
  {
    var board := s.board.(pieces := InitialPieces(), playerTurn := White);
    Transition(s.(board := board, history := []), [PostReset])
  }

  /** `handleUndo`: drops exactly the last history entry (an empty history stays empty) before
      the authority answers, and asks it to undo. */
  function HandleUndo(s: Session): (t: Transition)
    ensures |s.history| > 0 ==> t.next.history + [s.history[|s.history| - 1]] == s.history
    ensures |s.history| == 0 ==> t.next.history == []
    ensures t.next.(history := s.history) == s
    ensures t.sent == [PostUndo]
  {
    var h := s.history;
    Transition(s.(history := if |h| > 0 then h[..|h| - 1] else h), [PostUndo])
  }

  /** `setToPvp` / `setToAi`: switch the local mode, tell the authority, and ask it to reset.
      The local board and history are not reset. */
  function SetMode(s: Session, m: Mode): (t: Transition)
    ensures t.next.mode == m
    ensures t.next.(mode := s.mode) == s
    ensures t.sent == [PostGameMode(m), PostReset]
  {
    Transition(s.(mode := m), [PostGameMode(m), PostReset])
  }

  /** One event. */
  function Step(s: Session, e: Event): Transition
  {
    match e
    case DragStart(id) => HandleDragStart(s, id)
    case Drop(id, x, y) => HandleDrop(s, id, x, y)
    case PromotionClick(b) => ChoosePromotion(s, ButtonLetter(b))
    case ResetClicked => HandleReset(s)
    case UndoClicked => HandleUndo(s)
    case PvpClicked => SetMode(s, Pvp)
    case AiClicked => SetMode(s, Ai)
    case LegalMovesReplied(reply) => Transition(OnLegalMoves(s, reply), [])
    case MoveReplied(k, reply) => OnMoveReply(s, k, reply)
    case UndoReplied(state) => Transition(OnStateReply(s, state), [])
    case AiMoveReplied(state) => Transition(OnStateReply(s, state), [])
  }

  /** Events taken one after another by `step`: the final session and every request sent
      along the way, in order. */
  function RunWith(step: (Session, Event) -> Transition, s: Session, events: seq<Event>): Transition
    decreases |events|
  {
    if |events| == 0 then Transition(s, [])
    else
      var t := step(s, events[0]);
      var rest := RunWith(step, t.next, events[1..]);
      Transition(rest.next, t.sent + rest.sent)
  }

  /** A sequence of events handled by the game board. */
  function Run(s: Session, events: seq<Event>): Transition
  {
    RunWith(Step, s, events)
  }
}

=== FILE: game_properties.dfy ===
/**
  Properties of the game board's state machine over single steps and over event sequences.
 */
module GameProperties {
  import opened Wrappers
  import opened Square
  import opened Pieces
  import opened Authority
  import opened PanelLog
  import opened Chessboard
  import opened GameBoard

  /** A history entry as the drop handler writes it: a real piece name, and a real name for
      the captured piece if there is one. */
  ghost predicate EntryWellFormed(e: MoveLogEntry)
  {
    && IsPieceName(e.pieceName)
    && (e.capturedPieceName.Some? ==> IsPieceName(e.capturedPieceName.value))
  }

  /** What every reachable session satisfies: the dialog is open exactly while a resolver is
      pending, the resolver names a parked submission, submission ids are below the counter,
      each submission's move string names its source and target, and every history entry is
      well formed. */
  ghost predicate Valid(s: Session)
  {
    && (s.promotionModalOpen <==> s.resolver.Some?)
    && (s.resolver.Some? ==> s.resolver.value in s.submissions
                             && s.submissions[s.resolver.value].status == AwaitingChoice)
    && (forall k :: k in s.submissions ==> k < s.nextId)
    && (forall k :: k in s.submissions ==>
          s.submissions[k].move == MoveUci(Coord(s.submissions[k].piece.x, s.submissions[k].piece.y),
                                           s.submissions[k].target))
    && (forall i :: 0 <= i < |s.history| ==> EntryWellFormed(s.history[i]))
  }

  /** The starting session is valid and shows the starting position, white to move. */
  lemma InitialIsValid()
    ensures Valid(Initial())
    ensures Initial().board.pieces == InitialPieces() && Initial().board.playerTurn == White
    ensures Initial().history == [] && Initial().availableMoves == []
    ensures !Initial().promotionModalOpen && Initial().resolver.None?
  {
  }

  /** The entry for a confirmed submission names real pieces. */
  lemma LogEntryWellFormed(sub: Submission)
    ensures EntryWellFormed(LogEntry(sub))
  {
  }

  /** The per-event cases of `StepPreservesValid`. */
  lemma DropPreservesValid(s: Session, id: string, x: Index, y: Index)
    requires Valid(s)
    ensures Valid(HandleDrop(s, id, x, y).next)
  {
  }

  lemma MoveReplyPreservesValid(s: Session, k: nat, reply: MoveReply)
    requires Valid(s)
    ensures Valid(OnMoveReply(s, k, reply).next)
  {
    var r := OnMoveReply(s, k, reply).next;
    if Live(s, k) {
      match reply {
        case Applied(snap) =>
          var e := LogEntry(s.submissions[k]);
          LogEntryWellFormed(s.submissions[k]);
          forall i | 0 <= i < |r.history| ensures EntryWellFormed(r.history[i])
          {
            if i < |s.history| {
              assert r.history[i] == s.history[i];
            }
          }
        case _ =>
      }
    }
  }

  lemma ChoosePreservesValid(s: Session, letter: string)
    requires Valid(s)
    ensures Valid(ChoosePromotion(s, letter).next)
  {
  }

  lemma UndoPreservesValid(s: Session)
    requires Valid(s)
    ensures Valid(HandleUndo(s).next)
  {
  }

  /** Every event keeps a valid session valid. */
  lemma StepPreservesValid(s: Session, e: Event)
    requires Valid(s)
    ensures Valid(Step(s, e).next)
  {
    match e {
      case Drop(id, x, y) => DropPreservesValid(s, id, x, y);
      case MoveReplied(k, reply) => MoveReplyPreservesValid(s, k, reply);
      case PromotionClick(b) => ChoosePreservesValid(s, ButtonLetter(b));
      case UndoClicked => UndoPreservesValid(s);
      case _ =>
    }
  }

  /** Every sequence of events keeps a valid session valid; in particular every session
      reachable from the starting one is valid. */
  lemma {:induction false} RunPreservesValid(s: Session, events: seq<Event>)
    requires Valid(s)
    ensures Valid(Run(s, events).next)
    decreases |events|
  {
    if |events| > 0 {
      StepPreservesValid(s, events[0]);
      RunPreservesValid(Step(s, events[0]).next, events[1..]);
    }
  }

  /** Neither a reset nor an undo. */
  predicate KeepsHistory(e: Event)
  {
    !e.ResetClicked? && !e.UndoClicked?
  }

  /** Apart from reset and undo, history only grows at its end, by at most one entry per
      event. */
  lemma StepAppendsHistory(s: Session, e: Event)
    requires KeepsHistory(e)
    ensures s.history <= Step(s, e).next.history
    ensures |Step(s, e).next.history| <= |s.history| + 1
  {
  }

  /** Without resets and undos, the history is append-only: the old history is a prefix of the
      new one, which has at most one entry more per event. */
  lemma {:induction false} RunAppendsHistory(s: Session, events: seq<Event>)
    requires forall i :: 0 <= i < |events| ==> KeepsHistory(events[i])
    ensures s.history <= Run(s, events).next.history
    ensures |Run(s, events).next.history| <= |s.history| + |events|
    decreases |events|
  {
    if |events| > 0 {
      var s1 := Step(s, events[0]).next;
      StepAppendsHistory(s, events[0]);
      RunAppendsHistory(s1, events[1..]);
    }
  }

  /** The board and the outcome flags change only by installing an authority snapshot or by a
      local reset to the starting position: the client never advances the game by itself. */
  lemma BoardChangesOnlyFromAuthorityOrReset(s: Session, e: Event)
    ensures var r := Step(s, e).next;
            !SameBoard(r, s) ==>
              || (e.MoveReplied? && Live(s, e.submission) && e.reply.Applied? && Reflects(r, e.reply.snapshot))
              || (e.UndoReplied? && e.state.Some? && Reflects(r, e.state.value))
              || (e.AiMoveReplied? && e.state.Some? && Reflects(r, e.state.value))
              || (e.ResetClicked? && r.board.pieces == InitialPieces() && r.board.playerTurn == White)
  {
  }

  /** Running two event sequences one after the other is running their concatenation. */
  lemma {:induction false} RunWithConcat(step: (Session, Event) -> Transition, s: Session,
                                         a: seq<Event>, b: seq<Event>)
    ensures RunWith(step, s, a + b).next == RunWith(step, RunWith(step, s, a).next, b).next
    ensures RunWith(step, s, a + b).sent == RunWith(step, s, a).sent + RunWith(step, RunWith(step, s, a).next, b).sent
    decreases |a|
  {
    if |a| == 0 {
      assert a + b == b;
    } else {
      var ab := a + b;
      var t := step(s, a[0]);
      assert ab[0] == a[0];
      assert ab[1..] == a[1..] + b;
      RunWithConcat(step, t.next, a[1..], b);
    }
  }

  /** The game board's runs compose the same way. */
  lemma RunConcat(s: Session, a: seq<Event>, b: seq<Event>)
    ensures Run(s, a + b).next == Run(Run(s, a).next, b).next
    ensures Run(s, a + b).sent == Run(s, a).sent + Run(Run(s, a).next, b).sent
  {
    RunWithConcat(Step, s, a, b);
  }

  /** Running two events is taking two steps. */
  lemma RunPair(s: Session, e1: Event, e2: Event)
    ensures var t1 := Step(s, e1);
            var t2 := Step(t1.next, e2);
            Run(s, [e1, e2]) == Transition(t2.next, t1.sent + t2.sent)
  {
    var t1 := Step(s, e1);
    var t2 := Step(t1.next, e2);
    assert [e1, e2][1..] == [e2];
    assert [e2][1..] == [];
    assert RunWith(Step, t2.next, []) == Transition(t2.next, []);
    assert RunWith(Step, t1.next, [e2]) == Transition(t2.next, t2.sent + []);
  }

  /** A drop of a known piece confirmed by the authority: exactly one entry is appended, built
      from the state at drop time; the snapshot becomes the board; the highlights are cleared;
      and exactly one AI-move request follows if the mode was "ai" at the drop. */
  lemma DropThenApplied(s: Session, id: string, x: Index, y: Index, snap: Snapshot)
    requires s.nextId !in s.submissions
    requires FindById(s.board.pieces, id).Some?
    ensures var piece := FindById(s.board.pieces, id).value;
            var t := Run(s, [Drop(id, x, y), MoveReplied(s.nextId, Applied(snap))]);
            && |t.next.history| == |s.history| + 1
            && t.next.history[..|s.history|] == s.history
            && t.next.history[|s.history|].player == piece.player
            && t.next.history[|s.history|].pieceName == PieceTypeToName(piece.kind)
            && t.next.history[|s.history|].source == Coord(piece.x, piece.y)
            && t.next.history[|s.history|].target == Coord(x, y)
            && (t.next.history[|s.history|].capturedPieceName.Some? <==> Occupied(s.board.pieces, x, y))
            && (Occupied(s.board.pieces, x, y) ==>
                  t.next.history[|s.history|].capturedPieceName == Some(PieceTypeToName(FindAt(s.board.pieces, x, y).value.kind)))
            && Reflects(t.next, snap)
            && t.next.availableMoves == []
            && t.sent == [PostMove(MoveUci(Coord(piece.x, piece.y), Coord(x, y)), None)]
                         + (if s.mode == Ai then [PostAiMove] else [])
  {
    var piece := FindById(s.board.pieces, id).value;
    var t1 := Step(s, Drop(id, x, y));
    var k := s.nextId;
    assert Live(t1.next, k);
    var sub := t1.next.submissions[k];
    assert sub.piece == piece && sub.captured == FindAt(s.board.pieces, x, y) && sub.modeAtDrop == s.mode;
    var t2 := Step(t1.next, MoveReplied(k, Applied(snap)));
    assert t2.sent == if s.mode == Ai then [PostAiMove] else [];
    assert t2.next.history == s.history + [LogEntry(sub)];
    RunPair(s, Drop(id, x, y), MoveReplied(k, Applied(snap)));
  }

  /** A drop rejected by the authority (or lost in transport) leaves the board, the turn, the
      flags and the history as they were, clears the highlights, and asks for no AI move. */
  lemma DropThenFailed(s: Session, id: string, x: Index, y: Index)
    requires s.nextId !in s.submissions
    requires FindById(s.board.pieces, id).Some?
    ensures var t := Run(s, [Drop(id, x, y), MoveReplied(s.nextId, MoveFailed)]);
            && SameBoard(t.next, s)
            && t.next.history == s.history
            && t.next.availableMoves == []
            && t.next.submissions == s.submissions
            && PostAiMove !in t.sent
  {
    var t1 := Step(s, Drop(id, x, y));
    RunPair(s, Drop(id, x, y), MoveReplied(s.nextId, MoveFailed));
  }

  /** A drop whose payload names no piece changes nothing and sends nothing, whatever reply
      later arrives for the id it would have used. */
  lemma DropOfUnknownPiece(s: Session, id: string, x: Index, y: Index, reply: MoveReply)
    requires s.nextId !in s.submissions
    requires FindById(s.board.pieces, id).None?
    ensures Run(s, [Drop(id, x, y), MoveReplied(s.nextId, reply)]) == Transition(s, [])
  {
    RunPair(s, Drop(id, x, y), MoveReplied(s.nextId, reply));
  }

  /** The promotion round trip: the authority asks for a piece, the dialog opens, one click
      closes it and resubmits the same move string with the click's letter, and the confirmed
      move is logged once. */
  lemma PromotionRoundTrip(s: Session, id: string, x: Index, y: Index, b: PromotionButton, snap: Snapshot)
    requires s.nextId !in s.submissions
    requires FindById(s.board.pieces, id).Some?
    requires s.resolver.None?
    ensures var piece := FindById(s.board.pieces, id).value;
            var move := MoveUci(Coord(piece.x, piece.y), Coord(x, y));
            var events := [Drop(id, x, y), MoveReplied(s.nextId, PromotionNeeded)];
            var parked := Run(s, events);
            var done := Run(s, events + [PromotionClick(b), MoveReplied(s.nextId, Applied(snap))]);
            && parked.next.promotionModalOpen && parked.next.resolver == Some(s.nextId)
            && parked.sent == [PostMove(move, None)]
            && !done.next.promotionModalOpen && done.next.resolver.None?
            && done.sent == [PostMove(move, None), PostMove(move, Some(ButtonLetter(b)))]
                            + (if s.mode == Ai then [PostAiMove] else [])
            && |done.next.history| == |s.history| + 1
            && Reflects(done.next, snap)
  {
    var k := s.nextId;
    var piece := FindById(s.board.pieces, id).value;
    var move := MoveUci(Coord(piece.x, piece.y), Coord(x, y));
    var e1, e2, e3, e4 := Drop(id, x, y), MoveReplied(k, PromotionNeeded), PromotionClick(b), MoveReplied(k, Applied(snap));
    var t1 := Step(s, e1);
    var t2 := Step(t1.next, e2);
    var t3 := Step(t2.next, e3);
    var t4 := Step(t3.next, e4);
    assert t1.sent == [PostMove(move, None)];
    assert t2.sent == [] && t2.next.resolver == Some(k) && t2.next.submissions[k].move == move;
    assert t3.sent == [PostMove(move, Some(ButtonLetter(b)))];
    assert Live(t3.next, k) && t3.next.submissions[k].modeAtDrop == s.mode;
    assert t4.sent == if s.mode == Ai then [PostAiMove] else [];
    RunPair(s, e1, e2);
    RunPair(t2.next, e3, e4);
    RunConcat(s, [e1, e2], [e3, e4]);
  }

  /** Running three events is taking three steps. */
  lemma RunTriple(s: Session, e1: Event, e2: Event, e3: Event)
    ensures var t1 := Step(s, e1);
            var t2 := Step(t1.next, e2);
            var t3 := Step(t2.next, e3);
            Run(s, [e1, e2, e3]) == Transition(t3.next, t1.sent + t2.sent + t3.sent)
  {
    var t1 := Step(s, e1);
    var t2 := Step(t1.next, e2);
    var t3 := Step(t2.next, e3);
    RunPair(s, e1, e2);
    assert [e3][1..] == [];
    assert RunWith(Step, t3.next, []) == Transition(t3.next, []);
    assert Run(t2.next, [e3]) == Transition(t3.next, t3.sent + []);
    RunConcat(s, [e1, e2], [e3]);
    assert [e1, e2] + [e3] == [e1, e2, e3];
  }

  /** Two promotion requests in a row: the second overwrites the resolver slot, so one click
      resubmits only the second move. The first submission stays parked with no resolver and
      the dialog closed, and a later reply for it is ignored: it never settles. */
  lemma SecondPromotionStrandsFirst(s: Session, k1: nat, k2: nat, b: PromotionButton, reply: MoveReply)
    requires k1 != k2
    requires Live(s, k1) && Live(s, k2)
    ensures var t := Run(s, [MoveReplied(k1, PromotionNeeded), MoveReplied(k2, PromotionNeeded), PromotionClick(b)]);
            && k1 in t.next.submissions && t.next.submissions[k1].status == AwaitingChoice
            && t.next.resolver.None? && !t.next.promotionModalOpen
            && t.sent == [PostMove(s.submissions[k2].move, Some(ButtonLetter(b)))]
            && Step(t.next, MoveReplied(k1, reply)) == Transition(t.next, [])
  {
    var e1, e2, e3 := MoveReplied(k1, PromotionNeeded), MoveReplied(k2, PromotionNeeded), PromotionClick(b);
    var t1 := Step(s, e1);
    var t2 := Step(t1.next, e2);
    var t3 := Step(t2.next, e3);
    assert Live(t1.next, k2);
    assert t2.next.resolver == Some(k2) && t2.next.submissions[k1].status == AwaitingChoice;
    RunTriple(s, e1, e2, e3);
  }

  /** Running one event is taking one step. */
  lemma RunSingle(s: Session, e: Event)
    ensures Run(s, [e]) == Step(s, e)
  {
    var t := Step(s, e);
    assert [e][1..] == [];
    assert RunWith(Step, t.next, []) == Transition(t.next, []);
    assert Run(s, [e]) == Transition(t.next, t.sent + []);
  }

  /** Not the authority's reply for submission k. */
  predicate SparesSubmission(e: Event, k: nat)
  {
    !(e.MoveReplied? && e.submission == k)
  }

  /** An in-flight submission is left exactly as recorded by every event other than the
      authority's reply to it: a later drop takes a fresh id, a click resumes only the parked
      submission, and a reply for another id touches only that id. */
  lemma StepKeepsLive(s: Session, e: Event, k: nat)
    requires Valid(s) && Live(s, k)
    requires SparesSubmission(e, k)
    ensures Live(Step(s, e).next, k)
    ensures Step(s, e).next.submissions[k] == s.submissions[k]
  {
  }

  /** The same over any sequence of events that holds no reply for submission k. */
  lemma {:induction false} RunKeepsLive(s: Session, events: seq<Event>, k: nat)
    requires Valid(s) && Live(s, k)
    requires forall i :: 0 <= i < |events| ==> SparesSubmission(events[i], k)
    ensures Live(Run(s, events).next, k)
    ensures Run(s, events).next.submissions[k] == s.submissions[k]
    decreases |events|
  {
    if |events| > 0 {
      StepKeepsLive(s, events[0], k);
      StepPreservesValid(s, events[0]);
      RunKeepsLive(Step(s, events[0]).next, events[1..], k);
    }
  }

  /** Whatever happens between a drop and the authority's confirmation of it (other moves,
      clicks, mode switches, resets), the history entry and the AI-move decision use the
      piece, the occupant of the target square and the mode as they were at the drop. */
  lemma DropTimeValues(s: Session, id: string, x: Index, y: Index, mid: seq<Event>, snap: Snapshot)
    requires Valid(s)
    requires FindById(s.board.pieces, id).Some?
    requires forall i :: 0 <= i < |mid| ==> SparesSubmission(mid[i], s.nextId)
    ensures var piece := FindById(s.board.pieces, id).value;
            var captured := FindAt(s.board.pieces, x, y);
            var m := Run(s, [Drop(id, x, y)] + mid).next;
            var t := Step(m, MoveReplied(s.nextId, Applied(snap)));
            && t.next.history == m.history + [MoveLogEntry(piece.player, PieceTypeToName(piece.kind),
                                                           Coord(piece.x, piece.y), Coord(x, y),
                                                           if captured.Some? then Some(PieceTypeToName(captured.value.kind)) else None)]
            && (PostAiMove in t.sent <==> s.mode == Ai)
            && Reflects(t.next, snap)
  {
    var k := s.nextId;
    var t1 := Step(s, Drop(id, x, y));
    DropPreservesValid(s, id, x, y);
    assert Live(t1.next, k);
    RunSingle(s, Drop(id, x, y));
    RunConcat(s, [Drop(id, x, y)], mid);
    RunKeepsLive(t1.next, mid, k);
  }

  /** The resolver is single-shot: after one choice a second choice does nothing. */
  lemma ChoosePromotionSingleShot(s: Session, first: string, second: string)
    ensures var t := ChoosePromotion(s, first);
            ChoosePromotion(t.next, second) == Transition(t.next, [])
  {
  }

  /** Undo trims the local history by one entry whatever the authority replies, and only a
      snapshot reply touches the board. */
  lemma UndoWhateverTheReply(s: Session, reply: Option<Snapshot>)
    ensures var t := Run(s, [UndoClicked, UndoReplied(reply)]);
            && (|s.history| > 0 ==> t.next.history == s.history[..|s.history| - 1])
            && (|s.history| == 0 ==> t.next.history == [])
            && t.sent == [PostUndo]
            && (reply.None? ==> SameBoard(t.next, s))
            && (reply.Some? ==> Reflects(t.next, reply.value))
  {
    var t1 := Step(s, UndoClicked);
    RunPair(s, UndoClicked, UndoReplied(reply));
    if |s.history| > 0 {
      assert t1.next.history + [s.history[|s.history| - 1]] == s.history;
      assert t1.next.history == s.history[..|s.history| - 1];
    }
  }

  /** In the starting position the id "e2" names the white king's pawn and e4 is empty. */
  lemma OpeningLookups()
    ensures FindById(InitialPieces(), "e2") == Some(Piece("e2", 4, 6, Pawn, White))
    ensures FindAt(InitialPieces(), 4, 4).None?
  {
    var ps := InitialPieces();
    InitialPiecesWellFormed();
    assert ps[4] == Piece("e2", 4, 6, Pawn, White);
    FindByIdDistinct(ps, 4);
    InitialRows();
  }

  /** Grab, offer, drop and confirm from any session whose board has the white e2 pawn, an
      empty e4 and white to move. */
  lemma PawnMoveFrom(s: Session, snap: Snapshot)
    requires FindById(s.board.pieces, "e2") == Some(Piece("e2", 4, 6, Pawn, White))
    requires FindAt(s.board.pieces, 4, 4).None?
    requires s.board.playerTurn == White && s.mode == Pvp && s.nextId !in s.submissions
    ensures var t := Run(s, [DragStart("e2"), LegalMovesReplied(MoveList([(4, 5), (4, 4)]))]);
            && t.next.availableMoves == [Coord(4, 5), Coord(4, 4)]
            && t.sent == [LegalMoves("e2")]
    ensures var t := Run(s, [DragStart("e2"), LegalMovesReplied(MoveList([(4, 5), (4, 4)])),
                             Drop("e2", 4, 4), MoveReplied(s.nextId, Applied(snap))]);
            && t.next.history == s.history + [MoveLogEntry(White, "Pawn", Coord(4, 6), Coord(4, 4), None)]
            && t.next.availableMoves == []
            && Reflects(t.next, snap)
            && t.sent == [LegalMoves("e2"), PostMove("e2e4", None)]
  {
    var k := s.nextId;
    var e1, e2 := DragStart("e2"), LegalMovesReplied(MoveList([(4, 5), (4, 4)]));
    var e3, e4 := Drop("e2", 4, 4), MoveReplied(k, Applied(snap));
    var t1 := Step(s, e1);
    var t2 := Step(t1.next, e2);
    var t3 := Step(t2.next, e3);
    var t4 := Step(t3.next, e4);
    assert t1.next == s && t1.sent == [LegalMoves("e2")];
    assert t2.next.availableMoves == [Coord(4, 5), Coord(4, 4)] && t2.sent == [];
    assert MoveUci(Coord(4, 6), Coord(4, 4)) == "e2e4";
    assert t3.sent == [PostMove("e2e4", None)];
    var sub := Submission(Piece("e2", 4, 6, Pawn, White), Coord(4, 4), None, Pvp, "e2e4", InFlight);
    assert t3.next.submissions[k] == sub;
    assert LogEntry(sub) == MoveLogEntry(White, "Pawn", Coord(4, 6), Coord(4, 4), None);
    assert t4.sent == [];
    RunPair(s, e1, e2);
    RunPair(t2.next, e3, e4);
    RunConcat(s, [e1, e2], [e3, e4]);
    assert [e1, e2] + [e3, e4] == [e1, e2, e3, e4];
  }

  /** The opening move from the starting session: white grabs the e2 pawn, the authority offers
      e3 and e4, the pawn is dropped on e4 and the authority confirms. The history then holds
      exactly "white pawn from e2 to e4, no capture" and the highlights are gone. */
  lemma OpeningPawnMove(snap: Snapshot)
    ensures var t := Run(Initial(), [DragStart("e2"), LegalMovesReplied(MoveList([(4, 5), (4, 4)])),
                                     Drop("e2", 4, 4), MoveReplied(0, Applied(snap))]);
            && t.next.history == [MoveLogEntry(White, "Pawn", Coord(4, 6), Coord(4, 4), None)]
            && t.next.availableMoves == []
            && Reflects(t.next, snap)
            && t.sent == [LegalMoves("e2"), PostMove("e2e4", None)]
  {
    OpeningLookups();
    PawnMoveFrom(Initial(), snap);
  }
}

=== FILE: panel_log.dfy ===
/**
  The move-history panel of src/PanelLog.tsx: the log entry record and the mapping from
  a history to the numbered lines the panel shows.
 */
module PanelLog {
  import opened Wrappers
  import opened Square
  import opened Pieces

  /** One confirmed move: who moved, what, from where to where, and what stood on the target. */
  datatype MoveLogEntry = MoveLogEntry(player: Player, pieceName: string, source: Coord,
                                       target: Coord, capturedPieceName: Option<string>)

  /** Stands for the arrow glyph printed between the two squares. */
  const Arrow: string := " -> "

  /** One list item of the panel: the placeholder, or a numbered move line. */
  datatype Line =
    | NoMoves
    | MoveLine(number: nat, colour: string, pieceName: string, route: string, captures: Option<string>)

  /** The panel's own square formatter; it agrees with the codec used for requests. */
  function FormatSquare(x: Index, y: Index): (name: string)
    ensures name == IndexToSquare(x, y)
  {
    var file := (97 + x) as char;
    var rank := ('0' as int + (8 - y)) as char;
    [file] + [rank]
  }

  /** The side's colour as the panel names it. */
  function ColourLabel(player: Player): (colour: string)
    ensures colour == "Blue" <==> player == White
    ensures colour == "Red" <==> player != White
  {
    if player == White then "Blue" else "Red"
  }

  /** The "(captures X)" item: shown only for a present, non-empty captured name. */
  function CaptureNote(captured: Option<string>): (note: Option<string>)
    ensures note.Some? <==> captured.Some? && captured.value != ""
    ensures note.Some? ==> note == captured
  {
    match captured
    case Some(name) => if name == "" then None else Some(name)
    case None => None
  }

  /** The line for the entry at position `number` (counting from 1). */
  function RenderEntry(number: nat, e: MoveLogEntry): Line
  {
    MoveLine(number, ColourLabel(e.player), e.pieceName,
             FormatSquare(e.source.x, e.source.y) + Arrow + FormatSquare(e.target.x, e.target.y),
             CaptureNote(e.capturedPieceName))
  }

  /** The panel's list: one placeholder line for an empty history, otherwise one line per
      entry in history order, numbered from 1, showing the source square before the target. */
  function RenderHistory(history: seq<MoveLogEntry>): (lines: seq<Line>)
    ensures |history| == 0 ==> lines == [NoMoves]
    ensures |history| > 0 ==> |lines| == |history| && NoMoves !in lines
    ensures |history| > 0 ==> forall k :: 0 <= k < |history| ==>
              && lines[k].MoveLine?
              && lines[k].number == k + 1
              && lines[k].colour == ColourLabel(history[k].player)
              && lines[k].pieceName == history[k].pieceName
              && |lines[k].route| >= 4
              && lines[k].route[..2] == IndexToSquare(history[k].source.x, history[k].source.y)
              && lines[k].route[|lines[k].route| - 2..] == IndexToSquare(history[k].target.x, history[k].target.y)
              && lines[k].captures == CaptureNote(history[k].capturedPieceName)
  {
    if |history| == 0 then [NoMoves]
    else seq(|history|, k requires 0 <= k < |history| => RenderEntry(k + 1, history[k]))
  }

  /** Appending an entry adds exactly one line at the end, numbered one past the old length;
      the placeholder disappears when the first entry arrives. */
  lemma RenderHistoryAppend(history: seq<MoveLogEntry>, e: MoveLogEntry)
    ensures |history| == 0 ==> RenderHistory(history + [e]) == [RenderEntry(1, e)]
    ensures |history| > 0 ==> RenderHistory(history + [e]) == RenderHistory(history) + [RenderEntry(|history| + 1, e)]
  {
    var h' := history + [e];
    if |history| > 0 {
      var l, l' := RenderHistory(history), RenderHistory(h');
      forall k | 0 <= k < |l'| ensures l'[k] == (l + [RenderEntry(|history| + 1, e)])[k]
      {
        if k < |history| {
          assert h'[k] == history[k];
        }
      }
    }
  }
}

=== FILE: pieces.dfy ===
/**
  Pieces, players, the piece-name helper and the fixed starting position of
  src/gameBoard.tsx, plus the first-match lookup (`Array.prototype.find`) the
  client uses to find a piece by id or by square.
 */
module Pieces {
  import opened Wrappers
  import opened Square

  datatype PieceType = Pawn | Knight | Bishop | Rook | Queen | King

  datatype Player = White | Black

  /** A piece as the client holds it; `id` is the only field a drag carries. */
  datatype Piece = Piece(id: string, x: Index, y: Index, kind: PieceType, player: Player)

  /** The string value of each piece type. */
  function TypeName(t: PieceType): string
  {
    match t
    case Pawn => "pawn"
    case Knight => "knight"
    case Bishop => "bishop"
    case Rook => "rook"
    case Queen => "queen"
    case King => "king"
  }

  /** `toUpperCase` on one character; only ASCII letters occur in piece-type names. */
  function ToUpper(c: char): char
  {
    if 'a' <= c <= 'z' then (c as int - 32) as char else c
  }

  /** `pieceTypeToName`: the type name with its first letter upper-cased, e.g. "Knight". */
  function PieceTypeToName(t: PieceType): (name: string)
    ensures |name| == |TypeName(t)| > 0
    ensures 'A' <= name[0] <= 'Z' && name[0] as int + 32 == TypeName(t)[0] as int
    ensures name[1..] == TypeName(t)[1..]
  {
    var n := TypeName(t);
    [ToUpper(n[0])] + n[1..]
  }

  /** Different piece types get different display names, so a name identifies its type. */
  lemma PieceTypeToNameInjective(a: PieceType, b: PieceType)
    ensures PieceTypeToName(a) == PieceTypeToName(b) <==> a == b
  {
  }

  /** A display name that some piece type has. */
  ghost predicate IsPieceName(name: string)
  {
    exists t :: PieceTypeToName(t) == name
  }

  /** The index of the first element satisfying `matches`, as `Array.prototype.find` scans. */
  function FirstIndex(ps: seq<Piece>, matches: Piece -> bool): (r: Option<nat>)
    ensures r.Some? ==> r.value < |ps| && matches(ps[r.value])
    ensures r.Some? ==> forall j :: 0 <= j < r.value ==> !matches(ps[j])
    ensures r.None? ==> forall j :: 0 <= j < |ps| ==> !matches(ps[j])
    decreases |ps|
  {
    if |ps| == 0 then None
    else if matches(ps[0]) then Some(0)
    else
      match FirstIndex(ps[1..], matches)
      case None => None
      case Some(i) => Some(i + 1)
  }

  /** `pieces.find(p => p.id === id)`: the first piece with that id, if any. */
  function FindById(ps: seq<Piece>, id: string): (r: Option<Piece>)
    ensures r.None? <==> forall p :: p in ps ==> p.id != id
    ensures r.Some? ==> exists i :: 0 <= i < |ps| && ps[i] == r.value && r.value.id == id
                                     && forall j :: 0 <= j < i ==> ps[j].id != id
  {
    match FirstIndex(ps, (p: Piece) => p.id == id)
    case None => None
    case Some(i) => Some(ps[i])
  }

  /** `pieces.find(p => p.x === x && p.y === y)`: the first piece standing on (x, y), if any. */
  function FindAt(ps: seq<Piece>, x: Index, y: Index): (r: Option<Piece>)
    ensures r.None? <==> forall p :: p in ps ==> !(p.x == x && p.y == y)
    ensures r.Some? ==> exists i :: 0 <= i < |ps| && ps[i] == r.value && r.value.x == x && r.value.y == y
                                     && forall j :: 0 <= j < i ==> !(ps[j].x == x && ps[j].y == y)
  {
    match FirstIndex(ps, (p: Piece) => p.x == x && p.y == y)
    case None => None
    case Some(i) => Some(ps[i])
  }

  /** The eight pawns of one side, ids built as `${String.fromCharCode(97 + i)}${rank}`. */
  function PawnRow(player: Player, y: Index, rank: char): seq<Piece>
  {
    seq(8, i requires 0 <= i < 8 => Piece([(97 + i) as char, rank], i, y, Pawn, player))
  }

  /** White's back rank in the order `initialPieces` lists it. */
  function WhiteBackRank(): seq<Piece>
  {
    [ Piece("a1", 0, 7, Rook, White), Piece("h1", 7, 7, Rook, White),
      Piece("b1", 1, 7, Knight, White), Piece("g1", 6, 7, Knight, White),
      Piece("c1", 2, 7, Bishop, White), Piece("f1", 5, 7, Bishop, White),
      Piece("d1", 3, 7, Queen, White), Piece("e1", 4, 7, King, White) ]
  }

  /** Black's back rank in the order `initialPieces` lists it. */
  function BlackBackRank(): seq<Piece>
  {
    [ Piece("a8", 0, 0, Rook, Black), Piece("h8", 7, 0, Rook, Black),
      Piece("b8", 1, 0, Knight, Black), Piece("g8", 6, 0, Knight, Black),
      Piece("c8", 2, 0, Bishop, Black), Piece("f8", 5, 0, Bishop, Black),
      Piece("d8", 3, 0, Queen, Black), Piece("e8", 4, 0, King, Black) ]
  }

  /** `initialPieces`: white pawns, white back rank, black pawns, black back rank. */
  function InitialPieces(): seq<Piece>
  {
    PawnRow(White, 6, '2') + WhiteBackRank() + PawnRow(Black, 1, '7') + BlackBackRank()
  }

  /** Every piece's id is the name of the square it stands on. */
  ghost predicate IdsNameSquares(ps: seq<Piece>)
  {
    forall i :: 0 <= i < |ps| ==> ps[i].id == IndexToSquare(ps[i].x, ps[i].y)
  }

  /** No two pieces share a square. */
  ghost predicate DistinctSquares(ps: seq<Piece>)
  {
    forall i, j :: 0 <= i < j < |ps| ==> (ps[i].x, ps[i].y) != (ps[j].x, ps[j].y)
  }

  /** No two pieces share an id. */
  ghost predicate DistinctIds(ps: seq<Piece>)
  {
    forall i, j :: 0 <= i < j < |ps| ==> ps[i].id != ps[j].id
  }

  /** Where a back-rank piece stands in `initialPieces`' back-rank listing, from its column. */
  function BackRankSlot(x: Index): nat
  {
    [0, 2, 4, 6, 7, 5, 3, 1][x]
  }

  /** The position of a starting square in `initialPieces`: a bijection onto 0..31. */
  function Slot(x: Index, y: Index): nat
  {
    if y == 6 then x
    else if y == 7 then 8 + BackRankSlot(x)
    else if y == 1 then 16 + x
    else 24 + BackRankSlot(x)
  }

  /** Each piece of the starting position sits on the square whose slot is its own index. */
  lemma InitialSlots()
    ensures forall i :: 0 <= i < |InitialPieces()| ==>
              Slot(InitialPieces()[i].x, InitialPieces()[i].y) == i
              && InitialPieces()[i].id == IndexToSquare(InitialPieces()[i].x, InitialPieces()[i].y)
  {
  }

  /** The starting position: 32 pieces, 16 a side, on distinct squares, with distinct ids
      that each name the piece's starting square. */
  lemma InitialPiecesWellFormed()
    ensures |InitialPieces()| == 32
    ensures forall i :: 0 <= i < 16 ==> InitialPieces()[i].player == White
    ensures forall i :: 16 <= i < 32 ==> InitialPieces()[i].player == Black
    ensures IdsNameSquares(InitialPieces())
    ensures DistinctSquares(InitialPieces())
    ensures DistinctIds(InitialPieces())
  {
    var ps := InitialPieces();
    InitialSlots();
    forall i, j | 0 <= i < j < |ps| ensures ps[i].id != ps[j].id
    {
      IndexToSquareInjective(ps[i].x, ps[i].y, ps[j].x, ps[j].y);
    }
  }

  /** With distinct ids, looking up a piece's id finds that very piece. */
  lemma FindByIdDistinct(ps: seq<Piece>, i: nat)
    requires DistinctIds(ps)
    requires i < |ps|
    ensures FindById(ps, ps[i].id) == Some(ps[i])
  {
  }

  /** The starting position occupies only the two home rows of each side. */
  lemma InitialRows()
    ensures forall i :: 0 <= i < |InitialPieces()| ==> InitialPieces()[i].y in {0, 1, 6, 7}
  {
  }
}

=== FILE: square.dfy ===
/**
  Board geometry and the square-name codec used when talking to the move authority
  (`indexToSquare` in src/gameBoard.tsx). Column index 0..7 becomes the file letter
  'a'..'h'; row index 0..7 becomes the rank digit '8'..'1', so row 0 is the far rank
  as rendered at the top of the board.
 */
module Square {
  import opened Wrappers

  /** An index along one axis of the 8 x 8 board. */
  type Index = i: int | 0 <= i < 8

  /** A grid coordinate: x is the column, y the row; (0, 0) is the top-left square. */
  datatype Coord = Coord(x: Index, y: Index)

  /** The file letter `String.fromCharCode(97 + x)`. */
  function FileLetter(x: Index): char
  {
    (97 + x) as char
  }

  /** The rank `(8 - y).toString()`, always a single decimal digit on the board. */
  function RankDigit(y: Index): char
  {
    ('0' as int + (8 - y)) as char
  }

  /** The authority's name of the square at column x, row y, e.g. (4, 6) is "e2". */
  function IndexToSquare(x: Index, y: Index): (name: string)
    ensures |name| == 2
    ensures 'a' <= name[0] <= 'h' && '1' <= name[1] <= '8'
    ensures name[0] as int == 97 + x
    ensures name[1] as int - '0' as int == 8 - y
  {
    [FileLetter(x), RankDigit(y)]
  }

  /** The reverse direction of the codec: a two-character square name back to its coordinate. */
  function ParseSquare(name: string): (c: Option<Coord>)
    ensures c.Some? <==> |name| == 2 && 'a' <= name[0] <= 'h' && '1' <= name[1] <= '8'
  {
    if |name| == 2 && 'a' <= name[0] <= 'h' && '1' <= name[1] <= '8' then
      Some(Coord(name[0] as int - 'a' as int, 8 - (name[1] as int - '0' as int)))
    else
      None
  }

  /** Decoding an encoded coordinate gives the coordinate back. */
  lemma ParseIndexToSquare(x: Index, y: Index)
    ensures ParseSquare(IndexToSquare(x, y)) == Some(Coord(x, y))
  {
  }

  /** Every valid square name is the encoding of the coordinate it decodes to. */
  lemma IndexToSquareParse(name: string)
    requires ParseSquare(name).Some?
    ensures IndexToSquare(ParseSquare(name).value.x, ParseSquare(name).value.y) == name
  {
  }

  /** Distinct coordinates have distinct names: the 64 squares get 64 names. */
  lemma IndexToSquareInjective(x1: Index, y1: Index, x2: Index, y2: Index)
    ensures IndexToSquare(x1, y1) == IndexToSquare(x2, y2) <==> x1 == x2 && y1 == y2
  {
  }

  /** The move string sent to the authority: source name followed by target name. */
  function MoveUci(source: Coord, target: Coord): (move: string)
    ensures |move| == 4
    ensures move[..2] == IndexToSquare(source.x, source.y)
    ensures move[2..] == IndexToSquare(target.x, target.y)
  {
    IndexToSquare(source.x, source.y) + IndexToSquare(target.x, target.y)
  }

  /** Splits a four-character move string into its source and target squares. */
  function ParseMove(move: string): (r: Option<(Coord, Coord)>)
    ensures r.Some? ==> |move| == 4
  {
    if |move| != 4 then None
    else
      match (ParseSquare(move[..2]), ParseSquare(move[2..]))
      case (Some(s), Some(t)) => Some((s, t))
      case _ => None
  }

  /** The move string determines the move: parsing it gives back source and target. */
  lemma ParseMoveUci(source: Coord, target: Coord)
    ensures ParseMove(MoveUci(source, target)) == Some((source, target))
  {
  }
}

=== FILE: wrappers.dfy ===
/** Optional values, standing for the results of `find` and the optional fields of the client. */
module Wrappers {

  datatype Option<+T> = None | Some(value: T)
}
